=== FILE: README.md ===
# Click Clean front end: a Dafny model of its component logic

Click Clean is a civic-issue reporting web app. Citizens report problems. Municipal staff track and resolve them. Community reporters are ranked on a leaderboard and redeem reward points. The front end is React view code over a managed authentication backend. Inside the components sit small, deterministic rules and local state transitions. This project lifts them out as pure Dafny functions over immutable records and sequences, and proves what they promise:

- **Auth** (`components/Auth.tsx`). Resolving the published user from a session and an optional profile row, with fallback to the signup metadata and defaults. The provider's `user`/`loading` transitions on bootstrap, on session-change events and on logout. Mapping backend answers to the boolean that `login`/`signup` return. The signup form's ordered validation chain and both modal submits.
- **Training** (`components/Training.tsx`). A progress counter bounded at 100 with a completion flag, the advance step, the open lesson, button labels and the completed count.
- **Marketplace** (`components/Marketplace.tsx`). The category filter, add-to-cart with merging by id, cart totals and checkout.
- **Champions** (`components/Champions.tsx`). A stable sort, most issues resolved first, then ranks and top-three classes.
- **Tracking** (`components/Tracking.tsx`). Department and issue filters, badge classes, marker colours and status labels.
- **Chatbot** (`components/Chatbot.tsx`). Ordered keyword rules on the lower-cased input, and the message log.
- **Shell** (`app/page.tsx`), **Header** (`components/Header.tsx`), **Dashboard** (`components/Dashboard.tsx`) and **Profile** (`components/Profile.tsx`). Page and modal state, role-dependent labels, navigation links, fill-level thresholds, and the profile edit form.

Helper modules: `Wrappers` (an `Option` type, and JavaScript's `v || fallback` on strings), `Text` (`trim`, ASCII case mapping, character replacement, `includes`, capitalisation) and `Lists` (the shared "all or equal" filter).

Backend calls do not appear in the model. Their results are parameters:
- the session together with the profile lookup is a `Session`;
- the bootstrap outcome is an `InitialFetch`;
- `signInWithPassword`/`signUp` answers are an `AuthResponse`.

Roles are plain strings, because the two app generations disagree on the role set. `lib/data.ts` has `citizen | champion | municipal | facility`. `types/supabase.ts` has `citizen | reporter | municipal | admin`.

Three points about the code that are easy to get wrong:
- The initial session fetch writes `user` only when a session with a user is found. With no session, or when it throws, `user` is left as it was. The bootstrap never sets it to null; session-change events without a session, and `logout`, do.
- The signup form does not check the role. Its `<select>` offers only citizen and reporter, but nothing validates the value.
- Training with duplicate module ids: `handleAdvanceProgress` gives every module with the id the progress computed from the first one. So progress can fall for a later duplicate. The monotonicity lemmas therefore assume distinct ids.

## Model

| member | source | states |
|---|---|---|
| `Wrappers.OrElse` | frontend/app/components/Auth.tsx:64-65 | JavaScript `v or d` on strings: an absent value and the empty string both give the fallback; any other value is kept |
| `Auth.ResolveUser` | frontend/app/components/Auth.tsx:60-75 | id and email come from the session. With a profile row: name is `full_name` or "", role is the row's role or "citizen". Without a row: the same, from the session metadata. The role is never "" |
| `Auth.ProfileOverridesMetadata` | frontend/app/components/Auth.tsx:98-113 | when a profile row exists, the session metadata has no influence on the resolved user |
| `Auth.InitialSession` | frontend/app/components/Auth.tsx:48-83 | bootstrap ends with loading false; a found session sets the resolved user; no session or an exception leaves `user` unchanged |
| `Auth.AuthStateChange` | frontend/app/components/Auth.tsx:89-118 | every event ends loading; user is cleared exactly when the event has no session, otherwise it is the resolved user |
| `Auth.LastEventWins` | frontend/app/components/Auth.tsx:88-119 | the state a handler writes depends only on its own event, not on the state before it; authenticated exactly when the event carries a session |
| `Auth.IsAuthenticated` | frontend/app/components/Auth.tsx:178 | `!!user`: authenticated exactly when a user is published |
| `Auth.Logout` | frontend/app/components/Auth.tsx:168-171 | logout clears the user and leaves loading as it was |
| `Auth.LogoutDeauthenticates` | frontend/app/components/Auth.tsx:168-178 | after logout `isAuthenticated` is false; no transition sets loading back to true |
| `Auth.BootstrapFailureSettles` | frontend/app/components/Auth.tsx:77-82 | if the bootstrap throws, or finds no session, before any event, the provider settles with no user and loading false |
| `Auth.CredentialResult` | frontend/app/components/Auth.tsx:124-166 | login/signup return true exactly when the backend answered with no error and a user; a thrown call gives false, and nothing is thrown to the caller |
| `Auth.SignupMetadata` | frontend/app/components/Auth.tsx:145-154 | signup attaches the typed name and chosen role as `full_name` and `role` metadata |
| `Auth.SignupThenResolve` | frontend/app/components/Auth.tsx:105-113 | before a profile row exists, a new account resolves to the name and role given at signup (role "" falls back to citizen) |
| `Auth.ValidateSignup` | frontend/app/components/Auth.tsx:220-236 | passes exactly when name and email are non-blank after trimming, the password has at least 6 characters and equals the confirmation; otherwise gives the message of the first failing check, in that order |
| `Auth.SubmitSignup` | frontend/app/components/Auth.tsx:216-260 | the backend is called exactly when validation passes, with the email, password and name/role metadata. Success resets the form (role citizen), clears the error and closes. Failure keeps the form with "Signup failed. Please try again." |
| `Auth.SubmitLogin` | frontend/app/components/Auth.tsx:420-440 | closes and clears the fields exactly when the login succeeded and a user was present at submit time; otherwise keeps the fields and shows "Invalid email or password"; the catch message is unreachable |
| `Auth.FreshLoginRejected` | frontend/app/components/Auth.tsx:426-433 | from a logged-out page, a login the backend accepts is shown as "Invalid email or password" and the form stays open |
| `Auth.SubmitLoginCorrected` | frontend/app/components/Auth.tsx:426-431 | corrected submit: closes exactly when the backend accepted the credentials |
| `Auth.CorrectedLoginAgrees` | frontend/app/components/Auth.tsx:427-434 | the corrected submit agrees with the original whenever a user was already present, and accepts every accepted login |
| `Training.FindIndex` | frontend/app/components/Training.tsx:135 | the index of the first module with the id, or none exactly when no module has it |
| `Training.Find` | frontend/app/components/Training.tsx:126 | `Array.prototype.find`: the first module with the id; none exactly when no module has it |
| `Training.NextProgress` | frontend/app/components/Training.tsx:140 | the new progress is at most 100, strictly above any progress under 100, positive from any non-negative start, and equals 100 exactly when the old progress was at least 67 |
| `Training.Advance` | frontend/app/components/Training.tsx:134-152 | absent or completed modules leave the state unchanged. Otherwise only modules with the id change, to the new progress with `completed` set exactly at 100, and the list order is kept. The open lesson is cleared exactly when progress reaches 100 |
| `Training.AdvanceKeepsConsistent` | frontend/app/components/Training.tsx:140-144 | progress stays within 0..100 and `completed` stays equivalent to progress 100 |
| `Training.FindAfterAdvance` | frontend/app/components/Training.tsx:142-144 | after an advance, the module with the id is the stepped module (or unchanged if it was complete) |
| `Training.ThreeAdvancesComplete` | frontend/app/components/Training.tsx:140 | any module of a consistent list is complete at progress 100 after at most three advances |
| `Training.CompletingClosesLesson` | frontend/app/components/Training.tsx:147-150 | an advance that completes a module closes the lesson: no module is active |
| `Training.StartModule` | frontend/app/components/Training.tsx:129-131 | starting sets the active id and leaves the modules alone |
| `Training.CloseLesson` | frontend/app/components/Training.tsx:200 | closing clears the active id and leaves the modules alone |
| `Training.ActiveModule` | frontend/app/components/Training.tsx:126 | `modules.find(m => m.id === activeModuleId) or null`: the first module with the active id; none exactly when no id is active or no module has it |
| `Training.StartOpensLesson` | frontend/app/components/Training.tsx:126-131 | after starting a module, the active module is the first module with that id |
| `Training.ButtonLabel` | frontend/app/components/Training.tsx:19 | "Review Module" exactly when completed, "Continue" exactly when incomplete with progress above 0, "Start Now" otherwise |
| `Training.AdvancedNeverStarts` | frontend/app/components/Training.tsx:19 | with distinct ids, an advanced module never shows "Start Now" |
| `Training.CompletedCount` | frontend/app/components/Training.tsx:154 | at most the number of modules, equal to it exactly when all are completed |
| `Training.CompletedCountCountsFlags` | frontend/app/components/Training.tsx:154 | the count equals the number of `true` entries among the modules' `completed` flags, i.e. `filter(m => m.completed).length` |
| `Training.AdvanceMonotone` | frontend/app/components/Training.tsx:142-154 | with distinct ids, no progress decreases and the completed count never decreases |
| `Lists.Select` | frontend/app/components/Marketplace.tsx:62-64 | "all" keeps every element; otherwise every kept element has the key and every element with the key is kept |
| `Lists.SelectAppend` | frontend/app/components/Tracking.tsx:119-121 | the filter keeps the original order: it distributes over concatenation |
| `Marketplace.FilterRewards` | frontend/app/components/Marketplace.tsx:58-65 | a missing catalogue gives []; "all" gives the catalogue; otherwise exactly the rewards of that category |
| `Marketplace.Line` | frontend/app/components/Marketplace.tsx:76 | the cart line found for an id is in the cart and has that id; none exactly when no line has it; in a well-formed cart it is the only such line |
| `Marketplace.AddToCart` | frontend/app/components/Marketplace.tsx:74-85 | a reward already in the cart raises only that line's quantity by one; a new reward is appended with quantity 1; afterwards the reward is in the cart |
| `Marketplace.AddKeepsWellFormed` | frontend/app/components/Marketplace.tsx:74-85 | adds keep cart ids pairwise distinct and quantities at least 1 |
| `Marketplace.TotalItems` | frontend/app/components/Marketplace.tsx:68-72 | the sum of the line quantities, the `reduce` over the cart; `Marketplace.AddTotals` and `Marketplace.ItemsAtLeastLines` state its behaviour |
| `Marketplace.TotalPoints` | frontend/app/components/Marketplace.tsx:68-72 | the sum over the lines of points times quantity; `Marketplace.AddTotals` states how an add changes it |
| `Marketplace.AddTotals` | frontend/app/components/Marketplace.tsx:68-85 | each add raises `totalItems` by 1 and `totalPoints` by the points of the affected line |
| `Marketplace.ItemsAtLeastLines` | frontend/app/components/Marketplace.tsx:70 | in a well-formed cart `totalItems` is at least the number of lines |
| `Marketplace.Checkout` | frontend/app/components/Marketplace.tsx:87-97 | an empty cart is left as it is with no receipt; otherwise the totals are reported and the cart is emptied |
| `Marketplace.CheckoutAfterAdd` | frontend/app/components/Marketplace.tsx:87-94 | after any add, checkout reports at least one item |
| `Champions.Insert` | frontend/app/components/Champions.tsx:30 | inserting into a non-increasing list keeps it non-increasing and adds exactly that reporter |
| `Champions.SortByResolved` | frontend/app/components/Champions.tsx:30 | the result is a permutation of the input, non-increasing in issues resolved |
| `Champions.InsertStable` | frontend/app/components/Champions.tsx:30 | insertion puts the new reporter before reporters with the same count |
| `Champions.SortStable` | frontend/app/components/Champions.tsx:30 | the sort is stable: reporters with equal counts keep their input order |
| `Champions.RankClass` | frontend/app/components/Champions.tsx:12 | ranks 1-3 get `rank-1`..`rank-3`; the class is non-empty exactly for ranks up to 3 |
| `Champions.Leaderboard` | frontend/app/components/Champions.tsx:10-31 | row i has rank i+1 and class `RankClass(i+1)` (`rank-1` to `rank-3` for the top three, "" below), is highlighted exactly when i < 3, and the rows hold a permutation of the reporters, most issues resolved first; the row order is the stable sort, so `Champions.SortStable` carries over to the rows |
| `Champions.TopThreeHighlighted` | frontend/app/components/Champions.tsx:12 | exactly min(3, n) rows are highlighted |
| `Tracking.FilterDepartments` | frontend/app/components/Tracking.tsx:114-116 | "all" gives every department; otherwise exactly those of the selected type |
| `Tracking.FilterIssues` | frontend/app/components/Tracking.tsx:119-121 | "all" gives every issue; otherwise exactly those with the selected status |
| `Tracking.FilterIssuesAppend` | frontend/app/components/Tracking.tsx:120 | the issue filter keeps list order |
| `Tracking.FilterDepartmentsAppend` | frontend/app/components/Tracking.tsx:115 | the department filter keeps list order |
| `Tracking.IssueBadgeClass` | frontend/app/components/Tracking.tsx:56-58 | `--pending` exactly for pending, `--in-progress` exactly for in_progress, `--ok` for anything else |
| `Tracking.IssueMarkerColour` | frontend/app/components/Tracking.tsx:180-181 | green exactly for resolved, yellow exactly for in_progress, red otherwise |
| `Tracking.DepartmentMarkerColour` | frontend/app/components/Tracking.tsx:157-158 | green exactly for operational, yellow exactly for under_maintenance, red otherwise |
| `Tracking.MarkerAgreesWithBadge` | frontend/app/components/Tracking.tsx:56-58 | an issue's marker is yellow exactly when its badge is in-progress; a pending badge goes with a red marker |
| `Tracking.DepartmentStatusClass` | frontend/app/components/Tracking.tsx:32 | `status-` followed by the status with every `_` turned into `-` and no other change |
| `Tracking.DepartmentStatusText` | frontend/app/components/Tracking.tsx:44 | the status with every `_` shown as a space |
| `Tracking.IssueFilterLabel` | frontend/app/components/Tracking.tsx:287 | "All Issues" for the "all" button, otherwise the status label |
| `Text.StatusLabel` | frontend/app/components/Tracking.tsx:226 | each `_` becomes a space and letters are upper-cased; the label has no `_` and no lower-case ASCII letter |
| `Text.Trim` | frontend/app/components/Chatbot.tsx:13 | the result is the slice of the input left after removing all leading and trailing white space (everything before and after it is white space, and its own ends are not); empty exactly when the input is all white space |
| `Text.ReplaceAll` | frontend/app/components/Tracking.tsx:32 | every occurrence of the character is replaced and nothing else changes |
| `Text.ReplaceFirst` | frontend/app/components/Dashboard.tsx:61 | same length; unchanged when the character does not occur |
| `Text.ReplaceFirstAt` | frontend/app/components/Dashboard.tsx:61 | only the first occurrence is replaced |
| `Text.ReplaceFirstIsReplaceAll` | frontend/app/components/Dashboard.tsx:61-62 | with at most one occurrence, first-only and global replacement agree |
| `Text.Contains` | frontend/app/components/Chatbot.tsx:22-26 | `includes`: the needle is a prefix of some suffix of the haystack; `Text.ContainsAt` relates it to an occurrence index |
| `Text.ToUpper` | frontend/app/components/Tracking.tsx:66 | `toUpperCase` on ASCII: same length, each character upper-cased on its own |
| `Text.ToLower` | frontend/app/components/Chatbot.tsx:21 | `toLowerCase` on ASCII: same length, each character lower-cased on its own |
| `Text.ContainsAt` | frontend/app/components/Chatbot.tsx:22-26 | `includes` holds exactly when the needle occurs at some index |
| `Text.LowerOfUpper` | frontend/app/components/Chatbot.tsx:21 | lower-casing after upper-casing equals lower-casing |
| `Text.Capitalize` | frontend/app/components/Header.tsx:50 | first character upper-cased, the rest unchanged; "" stays "" |
| `Chatbot.Reply` | frontend/app/components/Chatbot.tsx:19-28 | the status reply exactly when the lower-cased input contains "status" and "report". Otherwise the report reply when it contains "report" and "issue". Otherwise the help reply when it contains "help". Otherwise the default |
| `Chatbot.ReplyIgnoresCase` | frontend/app/components/Chatbot.tsx:21 | upper-casing the input does not change the reply |
| `Chatbot.Send` | frontend/app/components/Chatbot.tsx:12-35 | blank input changes nothing; otherwise the typed text and then its reply are appended and the input is cleared |
| `Chatbot.Type` | frontend/app/components/Chatbot.tsx:149 | typing replaces the input and nothing else |
| `Chatbot.KeyPress` | frontend/app/components/Chatbot.tsx:150 | Enter sends; other keys change nothing |
| `Chatbot.Toggle` | frontend/app/components/Chatbot.tsx:42 | the button flips the window's visibility and keeps the log and input |
| `Chatbot.Close` | frontend/app/components/Chatbot.tsx:98 | closing hides the window and keeps the log and input |
| `Chatbot.LogOnlyGrows` | frontend/app/components/Chatbot.tsx:15-16 | the old log is a prefix of the new one, which is longer by 0 or 2 |
| `Chatbot.SendKeepsAlternation` | frontend/app/components/Chatbot.tsx:7-32 | the greeting stays first and user messages alternate with bot replies |
| `Chatbot.InitAlternates` | frontend/app/components/Chatbot.tsx:7-9 | the initial log is the greeting alone |
| `Shell.NavClick` | frontend/app/page.tsx:103-106 | shows the clicked page, closes the modal, keeps the user |
| `Shell.RoleChange` | frontend/app/page.tsx:108-110 | replaces the role only; name, area, training count, page and modal are unchanged |
| `Shell.OpenReportModal` | frontend/app/page.tsx:112 | sets the modal open, nothing else |
| `Shell.CloseReportModal` | frontend/app/page.tsx:113 | sets the modal closed, nothing else |
| `Shell.ModalIdempotent` | frontend/app/page.tsx:112-113 | open and close are idempotent; closing after opening restores a closed state |
| `Shell.RoleChangeLastWins` | frontend/app/page.tsx:108-110 | two role changes equal the last one; changing back restores the state |
| `Shell.RenderPage` | frontend/app/page.tsx:115-129 | training, tracking, champions and marketplace show their pages; every other id, profile included, shows the dashboard for the current role |
| `Shell.InitialView` | frontend/app/page.tsx:99-101 | the app opens on the citizen dashboard with the modal closed |
| `Shell.NavClickActivatesLink` | frontend/app/components/Header.tsx:39-47 | clicking the i-th nav link makes exactly that link active; the profile link renders the dashboard |
| `Header.IsMunicipal` | frontend/app/components/Header.tsx:26 | the role is "municipal" or "admin" |
| `Header.ReportButtonFor` | frontend/app/components/Header.tsx:26-28 | "View Reports" with the clipboard icon exactly for municipal and admin, otherwise "Report Issue" with the camera icon |
| `Header.NavLabel` | frontend/app/components/Header.tsx:50 | champions, marketplace and profile have fixed labels; any other id is shown with its first letter upper-cased |
| `Header.NavLinks` | frontend/app/components/Header.tsx:39-52 | six links in fixed order, each with its label, active exactly when its id is the active page |
| `Header.OneActiveLink` | frontend/app/components/Header.tsx:43 | at most one link is active, and one is exactly when the active page is a nav id |
| `Header.NavLabels` | frontend/app/components/Header.tsx:50 | dashboard, training and tracking read "Dashboard", "Training", "Tracking" |
| `Header.AuthControls` | frontend/app/components/Header.tsx:56-83 | signed-in controls (role caption, Profile button to "profile") exactly when authenticated, otherwise Sign Up and Login |
| `Dashboard.FillClass` | frontend/app/components/Dashboard.tsx:52-54 | overflowing exactly above 90, critical exactly in 81..90, ok at 80 and below |
| `Dashboard.FillClassMonotone` | frontend/app/components/Dashboard.tsx:52-54 | a fuller bin never has a better class |
| `Dashboard.BadgeClass` | frontend/app/components/Dashboard.tsx:61 | `status-badge--` plus the status with its first `_` (and only that one) turned into `-`, for every status; the status unchanged when it has no `_` |
| `Dashboard.BadgeLabel` | frontend/app/components/Dashboard.tsx:62 | character by character: each `_` becomes a space and every other character is upper-cased; same length, no `_` |
| `Dashboard.BadgeClassMatchesLabel` | frontend/app/components/Dashboard.tsx:61-62 | with at most one `_`, the class has `-` and the label a space wherever the status has `_` |
| `Dashboard.BadgeClassFirstOnly` | frontend/app/components/Dashboard.tsx:61 | a second underscore survives in the class: `a_b_c` gives `status-badge--a-b_c` |
| `Dashboard.AreaLabel` | frontend/app/components/Dashboard.tsx:117 | "Delhi" for citizens, otherwise the role with its first letter upper-cased |
| `Dashboard.ShowChampionTasks` | frontend/app/components/Dashboard.tsx:106 | the green-champion task section is shown exactly for the role "champion" |
| `Profile.RoleDisplayName` | frontend/app/components/Profile.tsx:28-36 | the four known roles map to fixed names; any other role is shown as itself |
| `Profile.RoleDescription` | frontend/app/components/Profile.tsx:38-51 | fixed descriptions for the four known roles; "" exactly for any other role |
| `Profile.RoleNamesDistinct` | frontend/app/components/Profile.tsx:28-51 | the known roles have distinct display names, none equal to the raw role, and non-empty descriptions |
| `Profile.AvatarInitial` | frontend/app/components/Profile.tsx:78 | the upper-cased first character of the name, "" for an empty name |
| `Profile.View` | frontend/app/components/Profile.tsx:12-21 | only the login prompt when there is no user; otherwise the user's initial, name, email, role name and description |
| `Profile.LogoutShowsPrompt` | frontend/app/components/Profile.tsx:210 | logging out from the profile page leaves only the login prompt |
| `Profile.InitialEdit` | frontend/app/components/Profile.tsx:8-10 | the form starts closed with the user's name and email, or empty fields with no user |
| `Profile.StartEdit` | frontend/app/components/Profile.tsx:204 | opens the form with the fields as they were |
| `Profile.EditFields` | frontend/app/components/Profile.tsx:126 | typing replaces the field values only |
| `Profile.Save` | frontend/app/components/Profile.tsx:23-26 | leaves edit mode and keeps the typed values |
| `Profile.Cancel` | frontend/app/components/Profile.tsx:191-195 | leaves edit mode and restores name and email from the user |
| `Profile.CancelUndoesEdits` | frontend/app/components/Profile.tsx:191-195 | cancel after any edits returns to the initial form; save keeps what was typed |

## Left out

- Backend I/O (`getSession`, the profile query, `signInWithPassword`, `signUp`, `signOut`): their results are parameters, not calls.
- Subscription set-up and `unsubscribe`, and the ordering between the bootstrap and the first event: these are lifecycle and timing concerns. Only the state each handler writes is modelled.
- `Auth.Logout`: a rejected `signOut` promise, which would skip `setUser(null)`, is not modelled. The backend client reports failures in its answer rather than by throwing.
- `Auth.LastEventWins`: handlers that overlap are not modelled. Each handler awaits the profile query before calling `setUser`, and nothing discards a stale write, so a slow lookup for an earlier event with a session can overwrite the null a later no-session event wrote. The last handler to finish decides, not the last event; the lemma speaks of handlers that run one after another.
- `Auth.AuthStateChange`: a profile query that throws inside the handler would be an unhandled rejection. It is not modelled, because a query error reads as "no row".
- `Auth.ResolveUser`: `session.user.email!` is taken as a string. A session without an email is not modelled.
- `useAuth` outside its provider throws a programming error. This is not modelled because it is not a runtime state.
- `Auth.SubmitLogin`: "the catch message is unreachable" assumes that `onLoginSuccess` and `onClose`, the callbacks the modal is given, do not throw. Code outside the modal is not part of this model.
- The modals' `isLoading` flag exists only while a call is pending, and it always ends false. `SubmitSignup` and `SubmitLogin` return the settled state.
- `Auth.ValidateSignup`: the password length counts Unicode scalar values. JavaScript counts UTF-16 code units, so they differ only for characters outside the Basic Multilingual Plane.
- `Text.ToUpper` and `Text.ToLower` map only the ASCII letters. JavaScript's full Unicode case mapping is not modelled, and with it `Chatbot.Reply`, `Text.StatusLabel`, `Text.Capitalize` and `Profile.AvatarInitial` on non-ASCII text.
- `Chatbot.Send`: the reply is appended at once. In the source it comes 500 ms later, so replies to rapid sends can interleave. That is timing.
- Google Maps rendering, marker icons and positions, `Math.random` offsets and the selected-marker info window: floating point, randomness and a foreign library. Only the colour and label tables are modelled.
- The overall-progress percentage (`Math.round(...) || 0`) and `formatNumber` (`toLocaleString('en-IN')`): floating point and locale formatting.
- Numbers (progress, points, quantities, fill levels) are unbounded integers. Double-precision arithmetic is not modelled.
- CSS text transforms (`textTransform: capitalize` on department status text), markup, styling and the filter buttons' `active` classes are out of scope.
- Static data and type files (`lib/data.ts`, `types/supabase.ts`), `BottomNav.tsx` and `layout.tsx`: no behaviour. `page.tsx` passes `Header` the props of the older app generation, and the two are not reconciled.
- The `Dashboard` incident list and statistic cards: display of static data only.

## Findings

| source | as written | input that shows it | evidently intended | confidence | as-written member | corrected member |
|---|---|---|---|---|---|---|
| frontend/app/components/Auth.tsx:427 | after `await login(...)` the submit tests `user`, which is the value captured when the form was rendered | a logged-out visitor submits correct credentials: the backend answers with a user and no error, and `user` at submit time is null | a successful login closes the form and clears the fields, and the user arrives with the session-change event | not executed; high (the handler reads a render-time constant) | `Auth.SubmitLogin`, shown by `Auth.FreshLoginRejected` | `Auth.SubmitLoginCorrected`, related to the original by `Auth.CorrectedLoginAgrees` |

=== FILE: auth.dfy ===
/** The authentication provider and its two modal forms (components/Auth.tsx).
    Every backend call is replaced by its result, passed in as a parameter. */
module Auth {
  import opened Wrappers
  import Text

  const DefaultRole := "citizen"

  /** `session.user.user_metadata`: what signup attached; either field may be missing. */
  datatype Metadata = Metadata(fullName: Option<string>, role: Option<string>)

  /** `session.user`, as far as the provider reads it. */
  datatype SessionUser = SessionUser(id: string, email: string, metadata: Metadata)

  /** A row of the `profiles` table: `full_name` is nullable, `role` is not. */
  datatype ProfileRow = ProfileRow(fullName: Option<string>, role: string)

  /** The user record the provider publishes. */
  datatype User = User(id: string, email: string, name: string, role: string)

  /** The session the backend reports, together with the result of the profile lookup
      (`maybeSingle`: zero or one row; a failed query also yields no row). */
  datatype Session = NoSession | Active(user: SessionUser, profile: Option<ProfileRow>)

  /** The provider's state: `user` and `loading`. */
  datatype AuthState = AuthState(user: Option<User>, loading: bool)

  /** Builds the published user from the session and the profile row, if there is one. */
  function ResolveUser(s: SessionUser, profile: Option<ProfileRow>): (u: User)
    ensures u.id == s.id && u.email == s.email
    ensures u.role != ""
    ensures profile.Some? ==>
      && u.name == profile.value.fullName.GetOr("")
      && (profile.value.role != "" ==> u.role == profile.value.role)
      && (profile.value.role == "" ==> u.role == DefaultRole)
    ensures profile.None? ==>
      && u.name == s.metadata.fullName.GetOr("")
      && (s.metadata.role.Some? && s.metadata.role.value != "" ==> u.role == s.metadata.role.value)
      && (s.metadata.role.None? || s.metadata.role.value == "" ==> u.role == DefaultRole)
  {
    match profile
    case Some(p) =>
      User(s.id, s.email, OrElse(p.fullName, ""), OrElse(Some(p.role), DefaultRole))
    case None =>
      User(s.id, s.email, OrElse(s.metadata.fullName, ""), OrElse(s.metadata.role, DefaultRole))
  }

  /** A profile row takes precedence: the session metadata is then irrelevant. */
  lemma ProfileOverridesMetadata(s: SessionUser, m: Metadata, p: ProfileRow)
    ensures ResolveUser(s, Some(p)) == ResolveUser(s.(metadata := m), Some(p))
    ensures ResolveUser(s, Some(p)).name == p.fullName.GetOr("")
  {
  }

  /** The provider's state when it mounts. */
  const Init := AuthState(None, true)

  /** What the initial `getSession` (and the profile query it triggers) produced; a thrown
      exception is caught and logged. */
  datatype InitialFetch = FetchFailed | FetchReturned(session: Session)

  /** The end of the initial-session bootstrap. Only a session with a user writes `user`;
      no session and a thrown exception leave it as it was. `loading` always ends false. */
  function InitialSession(st: AuthState, f: InitialFetch): (r: AuthState)
    ensures !r.loading
    ensures f.FetchReturned? && f.session.Active? ==>
      r.user == Some(ResolveUser(f.session.user, f.session.profile))
    ensures f.FetchFailed? || f.session.NoSession? ==> r.user == st.user
  {
    match f
    case FetchReturned(Active(su, p)) => AuthState(Some(ResolveUser(su, p)), false)
    case _ => st.(loading := false)
  }

  /** The `onAuthStateChange` handler: a session with a user is resolved, anything else
      clears the user; `loading` ends false either way. */
  function AuthStateChange(st: AuthState, s: Session): (r: AuthState)
    ensures !r.loading
    ensures r.user.None? <==> s.NoSession?
    ensures s.Active? ==> r.user == Some(ResolveUser(s.user, s.profile))
  {
    match s
    case NoSession => AuthState(None, false)
    case Active(su, p) => AuthState(Some(ResolveUser(su, p)), false)
  }

  /** `logout`: once `signOut` has completed the user is cleared at once, without waiting
      for the session-change notification. */
  function Logout(st: AuthState): (r: AuthState)
    ensures r.user.None?
    ensures r.loading == st.loading
  {
    st.(user := None)
  }

  /** `isAuthenticated: !!user`. */
  predicate IsAuthenticated(st: AuthState) {
    st.user.Some?
  }

  /** The state a session-change handler writes depends only on its own event, not on the
      state before it. */
  lemma LastEventWins(st1: AuthState, st2: AuthState, a: Session, b: Session)
    ensures AuthStateChange(AuthStateChange(st1, a), b) == AuthStateChange(st2, b)
    ensures IsAuthenticated(AuthStateChange(st1, b)) <==> b.Active?
  {
  }

  /** Logging out always leaves the provider unauthenticated, and no transition ever
      sets `loading` back to true. */
  lemma LogoutDeauthenticates(st: AuthState, s: Session, f: InitialFetch)
    ensures !IsAuthenticated(Logout(st))
    ensures !st.loading ==> !Logout(st).loading
    ensures !AuthStateChange(st, s).loading && !InitialSession(st, f).loading
  {
  }

  /** If the bootstrap throws before any session event, the provider settles
      unauthenticated and no longer loading. */
  lemma BootstrapFailureSettles()
    ensures InitialSession(Init, FetchFailed) == AuthState(None, false)
    ensures InitialSession(Init, FetchReturned(NoSession)) == AuthState(None, false)
  {
  }

  /** What `signInWithPassword` or `signUp` did: threw, or answered with an optional error
      and an optional user. */
  datatype AuthResponse = Threw | Answered(error: Option<string>, user: Option<SessionUser>)

  /** The boolean `login` and `signup` return: an error or an exception gives false,
      otherwise `!!data.user`. Neither operation ever throws. */
  function CredentialResult(resp: AuthResponse): (ok: bool)
    ensures ok <==> resp.Answered? && resp.error.None? && resp.user.Some?
  {
    match resp
    case Threw => false
    case Answered(error, user) => if error.Some? then false else user.Some?
  }

  /** The metadata `signup` attaches to the new account. */
  function SignupMetadata(name: string, role: string): (m: Metadata)
    ensures m.fullName == Some(name) && m.role == Some(role)
  {
    Metadata(Some(name), Some(role))
  }

  /** Until a profile row exists, a user who signed up is resolved from the signup
      metadata: the name they typed and the role they chose (or the default for none). */
  lemma SignupThenResolve(id: string, email: string, name: string, role: string)
    ensures var u := ResolveUser(SessionUser(id, email, SignupMetadata(name, role)), None);
      && u.name == name
      && u.role == (if role == "" then DefaultRole else role)
  {
  }

  // ----- Signup modal -----

  datatype SignupForm = SignupForm(name: string, email: string, password: string,
                                   confirmPassword: string, role: string)

  const EmptySignupForm := SignupForm("", "", "", "", DefaultRole)
  const MinPasswordLength := 6

  const NameRequired := "Name is required"
  const EmailRequired := "Email is required"
  const PasswordTooShort := "Password must be at least 6 characters"
  const PasswordMismatch := "Passwords do not match"
  const SignupFailed := "Signup failed. Please try again."

  /** The validation chain of the signup form: the message of the first check that fails. */
  function ValidateSignup(f: SignupForm): (r: Option<string>)
    ensures r.None? <==>
      !Text.Blank(f.name) && !Text.Blank(f.email)
      && |f.password| >= MinPasswordLength && f.password == f.confirmPassword
    ensures r == Some(NameRequired) <==> Text.Blank(f.name)
    ensures r == Some(EmailRequired) <==> !Text.Blank(f.name) && Text.Blank(f.email)
    ensures r == Some(PasswordTooShort) <==>
      !Text.Blank(f.name) && !Text.Blank(f.email) && |f.password| < MinPasswordLength
    ensures r == Some(PasswordMismatch) <==>
      !Text.Blank(f.name) && !Text.Blank(f.email)
      && |f.password| >= MinPasswordLength && f.password != f.confirmPassword
  {
    if Text.Trim(f.name) == "" then Some(NameRequired)
    else if Text.Trim(f.email) == "" then Some(EmailRequired)
    else if |f.password| < MinPasswordLength then Some(PasswordTooShort)
    else if f.password != f.confirmPassword then Some(PasswordMismatch)
    else None
  }

  /** The arguments `handleSubmit` passes to `signup`. */
  datatype SignupRequest = SignupRequest(email: string, password: string, metadata: Metadata)

  /** The signup form after a submit: its fields, its error text, the request sent to the
      backend (if any) and whether the modal asked to be closed. */
  datatype SignupOutcome = SignupOutcome(form: SignupForm, error: string,
                                         sent: Option<SignupRequest>, closed: bool)

  /** `SignupModal.handleSubmit`, given what the backend answers if it is called. */
  function SubmitSignup(f: SignupForm, resp: AuthResponse): (r: SignupOutcome)
    ensures r.sent.Some? <==> ValidateSignup(f).None?
    ensures ValidateSignup(f).Some? ==>
      r.form == f && r.error == ValidateSignup(f).value && !r.closed
    ensures r.sent.Some? ==>
      r.sent.value == SignupRequest(f.email, f.password, SignupMetadata(f.name, f.role))
    ensures r.sent.Some? && CredentialResult(resp) ==>
      r.form == EmptySignupForm && r.error == "" && r.closed
    ensures r.sent.Some? && !CredentialResult(resp) ==>
      r.form == f && r.error == SignupFailed && !r.closed
    ensures r.closed ==> r.sent.Some? && r.error == ""
  {
    match ValidateSignup(f)
    case Some(msg) => SignupOutcome(f, msg, None, false)
    case None =>
      var req := SignupRequest(f.email, f.password, SignupMetadata(f.name, f.role));
      if CredentialResult(resp) then SignupOutcome(EmptySignupForm, "", Some(req), true)
      else SignupOutcome(f, SignupFailed, Some(req), false)
  }

  // ----- Login modal -----

  datatype LoginForm = LoginForm(email: string, password: string)

  const InvalidCredentials := "Invalid email or password"
  const LoginFailed := "Login failed. Please try again."

  /** The login form after a submit: its fields, its error text, whether it closed and the
      user it handed to `onLoginSuccess`. */
  datatype LoginOutcome = LoginOutcome(form: LoginForm, error: string, closed: bool,
                                       reported: Option<User>)

  /** `LoginModal.handleSubmit` as written: it tests `user` as captured when the form was
      rendered, not the user the login produces. */
  function SubmitLogin(f: LoginForm, resp: AuthResponse, userAtSubmit: Option<User>): (r: LoginOutcome)
    ensures r.closed <==> CredentialResult(resp) && userAtSubmit.Some?
    ensures r.closed ==>
      r.form == LoginForm("", "") && r.error == "" && r.reported == userAtSubmit
    ensures !r.closed ==> r.form == f && r.error == InvalidCredentials && r.reported.None?
    ensures r.error != LoginFailed
  {
    var success := CredentialResult(resp);
    if success && userAtSubmit.Some? then LoginOutcome(LoginForm("", ""), "", true, userAtSubmit)
    else LoginOutcome(f, InvalidCredentials, false, None)
  }

  /** From a logged-out page, a login the backend accepts is reported to the user as
      "Invalid email or password" and the modal stays open. */
  lemma FreshLoginRejected(f: LoginForm, su: SessionUser)
    ensures CredentialResult(Answered(None, Some(su)))
    ensures var r := SubmitLogin(f, Answered(None, Some(su)), None);
      !r.closed && r.error == InvalidCredentials
  {
  }

  /** The login submit as evidently intended: it closes exactly when the backend accepted
      the credentials; the user itself arrives with the session-change event. */
  function SubmitLoginCorrected(f: LoginForm, resp: AuthResponse): (r: LoginOutcome)
    ensures r.closed <==> CredentialResult(resp)
    ensures r.closed ==> r.form == LoginForm("", "") && r.error == ""
    ensures !r.closed ==> r.form == f && r.error == InvalidCredentials
    ensures r.reported.None?
  {
    if CredentialResult(resp) then LoginOutcome(LoginForm("", ""), "", true, None)
    else LoginOutcome(f, InvalidCredentials, false, None)
  }

  /** The two submits agree whenever a user was already present, and the corrected one
      accepts every login the backend accepts. */
  lemma CorrectedLoginAgrees(f: LoginForm, resp: AuthResponse, u: User)
    ensures SubmitLoginCorrected(f, resp).closed == SubmitLogin(f, resp, Some(u)).closed
    ensures SubmitLoginCorrected(f, resp).error == SubmitLogin(f, resp, Some(u)).error
    ensures CredentialResult(resp) ==> SubmitLoginCorrected(f, resp).closed
  {
  }
}

=== FILE: champions.dfy ===
/** The community-reporter leaderboard (components/Champions.tsx): reporters sorted by
    issues resolved, most first, then numbered and the top three highlighted. */
module Champions {

  datatype Reporter = Reporter(id: string, name: string, city: string,
                               issuesResolved: int, trainingCompleted: int)

  /** One table row as `ReporterRow` renders it. */
  datatype Row = Row(reporter: Reporter, rank: nat, rankClass: string)

  predicate NonIncreasing(s: seq<Reporter>) {
    forall i, j :: 0 <= i < j < |s| ==> s[i].issuesResolved >= s[j].issuesResolved
  }

  /** Places `x` before the first reporter with no more issues resolved than it. */
  function Insert(x: Reporter, s: seq<Reporter>): (r: seq<Reporter>)
    requires NonIncreasing(s)
    ensures NonIncreasing(r)
    ensures multiset(r) == multiset(s) + multiset{x}
    ensures |r| == |s| + 1
    ensures r[0] == x || (s != [] && r[0] == s[0])
  {
    if s == [] || x.issuesResolved >= s[0].issuesResolved then [x] + s
    else
      var t := Insert(x, s[1..]);
      assert s == [s[0]] + s[1..];
      assert s[0].issuesResolved >= t[0].issuesResolved;
      [s[0]] + t
  }

  /** `[...reporters].sort((a, b) => b.issuesResolved - a.issuesResolved)`: a stable
      sort, most issues resolved first, on a copy of the list. */
  function SortByResolved(s: seq<Reporter>): (r: seq<Reporter>)
    ensures NonIncreasing(r)
    ensures multiset(r) == multiset(s)
    ensures |r| == |s|
  {
    if s == [] then []
    else
      assert s == [s[0]] + s[1..];
      Insert(s[0], SortByResolved(s[1..]))
  }

  /** The reporters with exactly `k` issues resolved, in list order. */
  function WithResolved(s: seq<Reporter>, k: int): seq<Reporter> {
    if s == [] then []
    else (if s[0].issuesResolved == k then [s[0]] else []) + WithResolved(s[1..], k)
  }

  /** The part of `WithResolved` one reporter contributes. */
  function Kept(y: Reporter, k: int): seq<Reporter> {
    if y.issuesResolved == k then [y] else []
  }

  lemma WithResolvedCons(y: Reporter, t: seq<Reporter>, k: int)
    ensures WithResolved([y] + t, k) == Kept(y, k) + WithResolved(t, k)
  {
    assert ([y] + t)[0] == y && ([y] + t)[1..] == t;
  }

  lemma {:induction false} InsertStable(x: Reporter, s: seq<Reporter>, k: int)
    requires NonIncreasing(s)
    ensures WithResolved(Insert(x, s), k) == Kept(x, k) + WithResolved(s, k)
  {
    if s == [] || x.issuesResolved >= s[0].issuesResolved {
      WithResolvedCons(x, s, k);
    } else {
      var t := Insert(x, s[1..]);
      assert Insert(x, s) == [s[0]] + t;
      InsertStable(x, s[1..], k);
      WithResolvedCons(s[0], t, k);
      assert s == [s[0]] + s[1..];
      WithResolvedCons(s[0], s[1..], k);
      var a, b, w := Kept(s[0], k), Kept(x, k), WithResolved(s[1..], k);
      assert WithResolved(Insert(x, s), k) == a + (b + w);
      assert WithResolved(s, k) == a + w;
      if a == [] {
        assert a + (b + w) == b + w;
        assert b + (a + w) == b + w;
      } else {
        assert b == [];
        assert a + (b + w) == a + w;
        assert b + (a + w) == a + w;
      }
    }
  }

  /** The sort is stable: reporters with equal counts keep their original order. */
  lemma {:induction false} SortStable(s: seq<Reporter>, k: int)
    ensures WithResolved(SortByResolved(s), k) == WithResolved(s, k)
  {
    if s != [] {
      SortStable(s[1..], k);
      InsertStable(s[0], SortByResolved(s[1..]), k);
      WithResolvedCons(s[0], s[1..], k);
      assert s == [s[0]] + s[1..];
    }
  }

  /** `rank <= 3 ? \`rank-${rank}\` : ''`. */
  function RankClass(rank: nat): (c: string)
    ensures c != "" <==> rank <= 3
    ensures 1 <= rank <= 3 ==> c == "rank-" + [('0' as int + rank) as char]
  {
    if rank <= 3 then "rank-" + [('0' as int + rank) as char] else ""
  }

  /** The rows of the leaderboard table. */
  function Leaderboard(reporters: seq<Reporter>): (rows: seq<Row>)
    ensures |rows| == |reporters|
    ensures forall i :: 0 <= i < |rows| ==> rows[i].rank == i + 1
    ensures forall i :: 0 <= i < |rows| ==> (rows[i].rankClass != "" <==> i < 3)
    ensures forall i :: 0 <= i < |rows| ==> rows[i].rankClass == RankClass(i + 1)
    ensures forall i, j :: 0 <= i < j < |rows| ==>
      rows[i].reporter.issuesResolved >= rows[j].reporter.issuesResolved
    ensures multiset(Reporters(rows)) == multiset(reporters)
    ensures Reporters(rows) == SortByResolved(reporters)
  {
    var sorted := SortByResolved(reporters);
    var rows := seq(|sorted|, i requires 0 <= i < |sorted| => Row(sorted[i], i + 1, RankClass(i + 1)));
    assert Reporters(rows) == sorted;
    rows
  }

  function Reporters(rows: seq<Row>): (s: seq<Reporter>)
    ensures |s| == |rows| && forall i :: 0 <= i < |rows| ==> s[i] == rows[i].reporter
  {
    seq(|rows|, i requires 0 <= i < |rows| => rows[i].reporter)
  }

  /** Number of highlighted rows. */
  function Highlighted(rows: seq<Row>): nat {
    if rows == [] then 0
    else Highlighted(rows[..|rows| - 1]) + (if rows[|rows| - 1].rankClass != "" then 1 else 0)
  }

  lemma {:induction false} HighlightedPrefix(rows: seq<Row>, k: nat)
    requires k <= |rows|
    requires forall i :: 0 <= i < |rows| ==> (rows[i].rankClass != "" <==> i < 3)
    ensures Highlighted(rows[..k]) == if k < 3 then k else 3
  {
    if k > 0 {
      HighlightedPrefix(rows, k - 1);
      assert rows[..k][..k - 1] == rows[..k - 1];
    }
  }

  /** Exactly min(3, n) rows of the leaderboard are highlighted. */
  lemma TopThreeHighlighted(reporters: seq<Reporter>)
    ensures var n := |reporters|;
      Highlighted(Leaderboard(reporters)) == if n < 3 then n else 3
  {
    var rows := Leaderboard(reporters);
    HighlightedPrefix(rows, |rows|);
    assert rows[..|rows|] == rows;
  }
}

=== FILE: chatbot.dfy ===
/** The rule-based assistant (components/Chatbot.tsx): a message log, an input field and a
    fixed list of keyword rules that pick the reply. */
module Chatbot {
  import Text

  datatype Message = Message(text: string, isUser: bool)

  datatype ChatState = ChatState(isOpen: bool, messages: seq<Message>, input: string)

  const Greeting := Message("Hi! I'm your civic assistant. Ask me about your reports!", false)

  const Init := ChatState(false, [Greeting], "")

  const StatusReply := "To check your report status, go to the Tracking page and filter by your issues."
  const ReportReply := "To report a new issue, click the 'Report Issue' button in the header and fill out the form."
  const HelpReply := "I can help with: checking report status, how to report issues, or general civic information."
  const DefaultReply := "I'm sorry, I don't understand. Try asking about 'status of my report' or 'how to report an issue'."

  /** The reply rules, tried in order on the lower-cased input. */
  function Reply(input: string): (r: string)
    ensures var l := Text.ToLower(input);
      var status := Text.Contains(l, "status") && Text.Contains(l, "report");
      var report := Text.Contains(l, "report") && Text.Contains(l, "issue");
      var help := Text.Contains(l, "help");
      && (r == StatusReply <==> status)
      && (r == ReportReply <==> !status && report)
      && (r == HelpReply <==> !status && !report && help)
      && (r == DefaultReply <==> !status && !report && !help)
  {
    var l := Text.ToLower(input);
    if Text.Contains(l, "status") && Text.Contains(l, "report") then StatusReply
    else if Text.Contains(l, "report") && Text.Contains(l, "issue") then ReportReply
    else if Text.Contains(l, "help") then HelpReply
    else DefaultReply
  }

  /** Matching ignores case: shouting the question gets the same reply. */
  lemma ReplyIgnoresCase(input: string)
    ensures Reply(Text.ToUpper(input)) == Reply(input)
  {
    Text.LowerOfUpper(input);
  }

  /** `handleSend`: a blank input does nothing; otherwise the user's text, as typed, and the
      reply are appended and the input is cleared. */
  function Send(st: ChatState): (r: ChatState)
    ensures Text.Blank(st.input) ==> r == st
    ensures !Text.Blank(st.input) ==>
      && r.messages == st.messages + [Message(st.input, true), Message(Reply(st.input), false)]
      && r.input == ""
      && r.isOpen == st.isOpen
  {
    if Text.Trim(st.input) == "" then st
    else
      ChatState(st.isOpen,
                st.messages + [Message(st.input, true), Message(Reply(st.input), false)],
                "")
  }

  /** The input's `onChange`. */
  function Type(st: ChatState, text: string): (r: ChatState)
    ensures r.input == text && r.messages == st.messages && r.isOpen == st.isOpen
  {
    st.(input := text)
  }

  /** The input's `onKeyPress`: Enter sends, any other key does nothing here. */
  function KeyPress(st: ChatState, key: string): (r: ChatState)
    ensures key == "Enter" ==> r == Send(st)
    ensures key != "Enter" ==> r == st
  {
    if key == "Enter" then Send(st) else st
  }

  /** The floating button toggles the window; the header's close button closes it. */
  function Toggle(st: ChatState): (r: ChatState)
    ensures r.isOpen == !st.isOpen && r.messages == st.messages && r.input == st.input
  {
    st.(isOpen := !st.isOpen)
  }

  function Close(st: ChatState): (r: ChatState)
    ensures !r.isOpen && r.messages == st.messages && r.input == st.input
  {
    st.(isOpen := false)
  }

  /** The log only grows, by nothing or by exactly one user message and one reply. */
  lemma LogOnlyGrows(st: ChatState)
    ensures st.messages <= Send(st).messages
    ensures |Send(st).messages| == |st.messages| || |Send(st).messages| == |st.messages| + 2
  {
  }

  /** The log starts with the greeting and then alternates user message, reply. */
  predicate Alternates(msgs: seq<Message>) {
    && |msgs| % 2 == 1
    && msgs[0] == Greeting
    && forall i :: 0 < i < |msgs| ==> (msgs[i].isUser <==> i % 2 == 1)
  }

  lemma AppendPairAlternates(m: seq<Message>, u: Message, b: Message)
    requires Alternates(m) && u.isUser && !b.isUser
    ensures Alternates(m + [u, b])
  {
    var m' := m + [u, b];
    forall i | 0 < i < |m'| ensures m'[i].isUser <==> i % 2 == 1 {
      if i < |m| {
        assert m'[i] == m[i];
      }
    }
  }

  /** Every state reachable from the initial one keeps the greeting first and alternates
      user messages with bot replies. */
  lemma SendKeepsAlternation(st: ChatState)
    requires Alternates(st.messages)
    ensures Alternates(Send(st).messages)
  {
    if !Text.Blank(st.input) {
      AppendPairAlternates(st.messages, Message(st.input, true), Message(Reply(st.input), false));
    }
  }

  lemma InitAlternates()
    ensures Alternates(Init.messages)
  {
  }
}

=== FILE: dashboard.dfy ===
/** The dashboard (components/Dashboard.tsx): bin fill classes, bin status badges and the
    role-dependent sections. */
module Dashboard {
  import Text

  const Overflowing := "fill-circle--overflowing"
  const Critical := "fill-circle--critical"
  const FillOk := "fill-circle--ok"

  /** The class of a bin's fill circle. */
  function FillClass(fillLevel: int): (c: string)
    ensures c == Overflowing <==> fillLevel > 90
    ensures c == Critical <==> 80 < fillLevel <= 90
    ensures c == FillOk <==> fillLevel <= 80
  {
    if fillLevel > 90 then Overflowing else if fillLevel > 80 then Critical else FillOk
  }

  /** The class only gets worse as the bin fills. */
  lemma FillClassMonotone(a: int, b: int)
    requires a <= b
    ensures FillClass(a) == Overflowing ==> FillClass(b) == Overflowing
    ensures FillClass(b) == FillOk ==> FillClass(a) == FillOk
  {
  }

  /** `status-badge--${status.replace('_', '-')}`: a string pattern, so only the first
      underscore becomes a hyphen. */
  function BadgeClass(status: string): (c: string)
    ensures |c| == |"status-badge--"| + |status|
    ensures c[..14] == "status-badge--"
    ensures '_' !in status ==> c == "status-badge--" + status
    ensures forall k :: 0 <= k < |status| && status[k] == '_' && '_' !in status[..k] ==>
      c == "status-badge--" + status[..k] + "-" + status[k + 1..]
  {
    Text.ReplaceFirstEverywhere(status, '_', '-');
    "status-badge--" + Text.ReplaceFirst(status, '_', '-')
  }

  /** The text of a bin's status badge. */
  function BadgeLabel(status: string): (l: string)
    ensures |l| == |status| && '_' !in l
    ensures forall i :: 0 <= i < |status| ==>
      l[i] == (if status[i] == '_' then ' ' else Text.UpperChar(status[i]))
  {
    Text.StatusLabel(status)
  }

  /** For statuses with at most one underscore (every bin status the app uses) the class
      replaces underscores exactly where the label does. */
  lemma BadgeClassMatchesLabel(status: string)
    requires Text.Occurrences(status, '_') <= 1
    ensures BadgeClass(status) == "status-badge--" + Text.ReplaceAll(status, '_', '-')
    ensures forall i :: 0 <= i < |status| && status[i] == '_' ==>
      BadgeClass(status)[14 + i] == '-' && BadgeLabel(status)[i] == ' '
  {
    Text.ReplaceFirstIsReplaceAll(status, '_', '-');
    var c := BadgeClass(status);
    forall i | 0 <= i < |status| && status[i] == '_'
      ensures c[14 + i] == '-'
    {
      assert c[14 + i] == Text.ReplaceAll(status, '_', '-')[i];
    }
  }

  /** With two underscores only the first is replaced in the class. */
  lemma BadgeClassFirstOnly()
    ensures BadgeClass("a_b_c") == "status-badge--a-b_c"
  {
    Text.ReplaceFirstAt("a_b_c", '_', '-', 1);
    assert "a_b_c"[..1] == "a" && "a_b_c"[2..] == "b_c";
  }

  /** The green-champion tasks are shown only to that role. */
  predicate ShowChampionTasks(role: string) {
    role == "champion"
  }

  /** The area in the bin section's title. */
  function AreaLabel(role: string): (a: string)
    ensures role == "citizen" ==> a == "Delhi"
    ensures role != "citizen" ==>
      |a| == |role| && (role != "" ==> a[0] == Text.UpperChar(role[0]) && a[1..] == role[1..])
  {
    if role == "citizen" then "Delhi" else Text.Capitalize(role)
  }
}

=== FILE: header.dfy ===
/** The page header (components/Header.tsx): the role-dependent report button, the six
    navigation links and the authentication controls. */
module Header {
  import Text

  /** Municipal staff and administrators see the reports view. */
  predicate IsMunicipal(role: string) {
    role == "municipal" || role == "admin"
  }

  datatype ReportButton = ReportButton(text: string, icon: string)

  const ViewReports := ReportButton("View Reports", "fas fa-clipboard-list")
  const ReportIssue := ReportButton("Report Issue", "fas fa-camera")

  /** The header's main button: text and icon both follow `isMunicipal`. */
  function ReportButtonFor(role: string): (b: ReportButton)
    ensures b == ViewReports <==> role == "municipal" || role == "admin"
    ensures b == ReportIssue <==> role != "municipal" && role != "admin"
  {
    if IsMunicipal(role) then ViewReports else ReportIssue
  }

  const NavIds := ["dashboard", "training", "tracking", "champions", "marketplace", "profile"]

  /** The text of a navigation link. */
  function NavLabel(id: string): (l: string)
    ensures id == "champions" ==> l == "Reporters"
    ensures id == "marketplace" ==> l == "Rewards"
    ensures id == "profile" ==> l == "Profile"
    ensures id != "champions" && id != "marketplace" && id != "profile" ==>
      |l| == |id| && (id != "" ==> l[0] == Text.UpperChar(id[0]) && l[1..] == id[1..])
  {
    if id == "champions" then "Reporters"
    else if id == "marketplace" then "Rewards"
    else if id == "profile" then "Profile"
    else Text.Capitalize(id)
  }

  datatype NavLink = NavLink(id: string, text: string, active: bool)

  /** The navigation links, in their fixed order, for the given active page. */
  function NavLinks(activePage: string): (links: seq<NavLink>)
    ensures |links| == |NavIds|
    ensures forall i :: 0 <= i < |links| ==>
      links[i].id == NavIds[i] && links[i].text == NavLabel(NavIds[i])
    ensures forall i :: 0 <= i < |links| ==> (links[i].active <==> NavIds[i] == activePage)
  {
    seq(|NavIds|, i requires 0 <= i < |NavIds| =>
      NavLink(NavIds[i], NavLabel(NavIds[i]), NavIds[i] == activePage))
  }

  /** At most one link is active, and one is exactly when the active page is a nav id. */
  lemma OneActiveLink(activePage: string)
    ensures forall i, j :: 0 <= i < j < |NavIds| ==>
      !(NavLinks(activePage)[i].active && NavLinks(activePage)[j].active)
    ensures (exists i :: 0 <= i < |NavIds| && NavLinks(activePage)[i].active) <==>
      activePage in NavIds
  {
    var links := NavLinks(activePage);
    if activePage in NavIds {
      var k :| 0 <= k < |NavIds| && NavIds[k] == activePage;
      assert links[k].active;
    }
  }

  /** The labels the six links show. */
  lemma NavLabels()
    ensures NavLabel("dashboard") == "Dashboard"
    ensures NavLabel("training") == "Training"
    ensures NavLabel("tracking") == "Tracking"
  {
    assert Text.Capitalize("dashboard") == "Dashboard";
    assert Text.Capitalize("training") == "Training";
    assert Text.Capitalize("tracking") == "Tracking";
  }

  /** The right-hand controls: a signed-in user's role and a Profile button that navigates
      to the profile page, or the Sign Up and Login buttons. */
  datatype Controls = SignedIn(caption: string, profileTarget: string) | SignedOut

  function AuthControls(isAuthenticated: bool, role: string): (c: Controls)
    ensures c.SignedIn? <==> isAuthenticated
    ensures c.SignedIn? ==> c.profileTarget == "profile" && c.caption == "Logged in as " + role
  {
    if isAuthenticated then SignedIn("Logged in as " + role, "profile") else SignedOut
  }
}

=== FILE: lists.dfy ===
/** The "all or equal" filter the list pages share: the selector `"all"` keeps every
    element, any other selector keeps the elements whose key equals it. */
module Lists {

  const All := "all"

  predicate Keeps<T>(key: T -> string, choice: string, x: T) {
    choice == All || key(x) == choice
  }

  function Select<T>(xs: seq<T>, key: T -> string, choice: string): (r: seq<T>)
    ensures |r| <= |xs|
    ensures forall i :: 0 <= i < |r| ==> r[i] in xs && Keeps(key, choice, r[i])
    ensures forall i :: 0 <= i < |xs| && Keeps(key, choice, xs[i]) ==> xs[i] in r
    ensures choice == All ==> r == xs
  {
    if xs == [] then []
    else (if Keeps(key, choice, xs[0]) then [xs[0]] else []) + Select(xs[1..], key, choice)
  }

  /** The filter keeps the original order: selecting from a concatenation is the
      concatenation of the selections. */
  lemma {:induction false} SelectAppend<T>(a: seq<T>, b: seq<T>, key: T -> string, choice: string)
    ensures Select(a + b, key, choice) == Select(a, key, choice) + Select(b, key, choice)
  {
    if a != [] {
      assert (a + b)[1..] == a[1..] + b;
      SelectAppend(a[1..], b, key, choice);
    } else {
      assert a + b == b;
    }
  }
}

=== FILE: marketplace.dfy ===
/** The rewards marketplace (components/Marketplace.tsx): a category filter over the
    reward catalogue and a cart that merges repeated rewards by id. */
module Marketplace {
  import opened Wrappers
  import Lists

  datatype Reward = Reward(id: string, name: string, category: string,
                           points: int, description: string)

  /** A cart line: the reward as it was first added, and how many of it. */
  datatype CartItem = CartItem(reward: Reward, quantity: int)

  function Category(r: Reward): string { r.category }

  /** `filteredRewards`; a missing catalogue (`appData.rewards || []`) reads as empty. */
  function FilterRewards(catalogue: Option<seq<Reward>>, filter: string): (r: seq<Reward>)
    ensures catalogue.None? ==> r == []
    ensures catalogue.Some? && filter == Lists.All ==> r == catalogue.value
    ensures catalogue.Some? ==>
      && (forall i :: 0 <= i < |r| ==>
            r[i] in catalogue.value && (filter == Lists.All || r[i].category == filter))
      && (forall i :: 0 <= i < |catalogue.value| && catalogue.value[i].category == filter ==>
            catalogue.value[i] in r)
  {
    Lists.Select(catalogue.GetOr([]), Category, filter)
  }

  /** Sum of a per-line measure over the cart, as `cart.reduce((sum, item) => ..., 0)`. */
  function Sum(cart: seq<CartItem>, f: CartItem -> int): int {
    if cart == [] then 0 else f(cart[0]) + Sum(cart[1..], f)
  }

  function Quantity(c: CartItem): int { c.quantity }
  function LinePoints(c: CartItem): int { c.reward.points * c.quantity }

  /** `totalItems`. */
  function TotalItems(cart: seq<CartItem>): int { Sum(cart, Quantity) }

  /** `totalPoints`. */
  function TotalPoints(cart: seq<CartItem>): int { Sum(cart, LinePoints) }

  predicate InCart(cart: seq<CartItem>, id: string) {
    exists i :: 0 <= i < |cart| && cart[i].reward.id == id
  }

  /** Ids are pairwise distinct and every quantity is at least one. */
  predicate WellFormed(cart: seq<CartItem>) {
    && (forall i, j :: 0 <= i < j < |cart| ==> cart[i].reward.id != cart[j].reward.id)
    && (forall i :: 0 <= i < |cart| ==> cart[i].quantity >= 1)
  }

  /** The first cart line with the given id (`cart.find(item => item.id === id)`). */
  function Line(cart: seq<CartItem>, id: string): (r: Option<CartItem>)
    ensures r.None? <==> !InCart(cart, id)
    ensures r.Some? ==> r.value in cart && r.value.reward.id == id
    ensures r.Some? && WellFormed(cart) ==>
      forall i :: 0 <= i < |cart| && cart[i].reward.id == id ==> r.value == cart[i]
  {
    if cart == [] then None
    else if cart[0].reward.id == id then Some(cart[0])
    else
      var r := Line(cart[1..], id);
      assert InCart(cart[1..], id) ==> InCart(cart, id) by {
        if InCart(cart[1..], id) {
          var i :| 0 <= i < |cart[1..]| && cart[1..][i].reward.id == id;
          assert cart[i + 1].reward.id == id;
        }
      }
      r
  }

  function Bump(c: CartItem, id: string): CartItem {
    if c.reward.id == id then c.(quantity := c.quantity + 1) else c
  }

  /** `handleAddToCart`. */
  function AddToCart(cart: seq<CartItem>, reward: Reward): (r: seq<CartItem>)
    ensures InCart(cart, reward.id) ==>
      && |r| == |cart|
      && (forall i :: 0 <= i < |cart| && cart[i].reward.id != reward.id ==> r[i] == cart[i])
      && (forall i :: 0 <= i < |cart| && cart[i].reward.id == reward.id ==>
            r[i] == cart[i].(quantity := cart[i].quantity + 1))
    ensures !InCart(cart, reward.id) ==> r == cart + [CartItem(reward, 1)]
    ensures InCart(r, reward.id)
  {
    match Line(cart, reward.id)
    case Some(_) => seq(|cart|, i requires 0 <= i < |cart| => Bump(cart[i], reward.id))
    case None =>
      var r := cart + [CartItem(reward, 1)];
      assert r[|cart|].reward.id == reward.id;
      r
  }

  /** Adding keeps ids distinct and quantities positive. */
  lemma AddKeepsWellFormed(cart: seq<CartItem>, reward: Reward)
    requires WellFormed(cart)
    ensures WellFormed(AddToCart(cart, reward))
  {
  }

  /** The points an add contributes: those of the line already in the cart, if any,
      otherwise those of the reward being added. */
  function AddedPoints(cart: seq<CartItem>, reward: Reward): int {
    match Line(cart, reward.id)
    case Some(c) => c.reward.points
    case None => reward.points
  }

  lemma {:induction false} SumAppend(a: seq<CartItem>, x: CartItem, f: CartItem -> int)
    ensures Sum(a + [x], f) == Sum(a, f) + f(x)
  {
    if a != [] {
      assert (a + [x])[1..] == a[1..] + [x];
      SumAppend(a[1..], x, f);
    } else {
      assert a + [x] == [x];
    }
  }

  lemma {:induction false} SumUpdate(a: seq<CartItem>, k: nat, x: CartItem, f: CartItem -> int)
    requires k < |a|
    ensures Sum(a[k := x], f) == Sum(a, f) - f(a[k]) + f(x)
  {
    if k > 0 {
      assert a[k := x][1..] == a[1..][k - 1 := x];
      SumUpdate(a[1..], k - 1, x, f);
    } else {
      assert a[k := x][1..] == a[1..];
    }
  }

  /** Each add raises `totalItems` by one and `totalPoints` by the points of the line. */
  lemma {:induction false} AddTotals(cart: seq<CartItem>, reward: Reward)
    requires WellFormed(cart)
    ensures TotalItems(AddToCart(cart, reward)) == TotalItems(cart) + 1
    ensures TotalPoints(AddToCart(cart, reward)) == TotalPoints(cart) + AddedPoints(cart, reward)
  {
    var r := AddToCart(cart, reward);
    if InCart(cart, reward.id) {
      var k :| 0 <= k < |cart| && cart[k].reward.id == reward.id;
      var x := cart[k].(quantity := cart[k].quantity + 1);
      assert r == cart[k := x];
      SumUpdate(cart, k, x, Quantity);
      SumUpdate(cart, k, x, LinePoints);
      assert AddedPoints(cart, reward) == cart[k].reward.points;
    } else {
      SumAppend(cart, CartItem(reward, 1), Quantity);
      SumAppend(cart, CartItem(reward, 1), LinePoints);
    }
  }

  /** A well-formed cart holds at least as many items as lines. */
  lemma {:induction false} ItemsAtLeastLines(cart: seq<CartItem>)
    requires WellFormed(cart)
    ensures TotalItems(cart) >= |cart|
  {
    if cart != [] {
      ItemsAtLeastLines(cart[1..]);
    }
  }

  datatype Receipt = Receipt(items: int, points: int)
  datatype CheckoutResult = CheckoutResult(cart: seq<CartItem>, receipt: Option<Receipt>)

  /** `handleCheckout`: an empty cart is left alone; otherwise the totals are reported and
      the cart is emptied. */
  function Checkout(cart: seq<CartItem>): (r: CheckoutResult)
    ensures cart == [] ==> r.cart == cart && r.receipt.None?
    ensures cart != [] ==>
      r.cart == [] && r.receipt == Some(Receipt(TotalItems(cart), TotalPoints(cart)))
  {
    if |cart| == 0 then CheckoutResult(cart, None)
    else CheckoutResult([], Some(Receipt(TotalItems(cart), TotalPoints(cart))))
  }

  /** Checking out a cart that has had anything added reports at least one item. */
  lemma CheckoutAfterAdd(cart: seq<CartItem>, reward: Reward)
    requires WellFormed(cart)
    ensures var c := AddToCart(cart, reward);
      Checkout(c).receipt.Some? && Checkout(c).receipt.value.items >= 1
  {
    AddKeepsWellFormed(cart, reward);
    ItemsAtLeastLines(AddToCart(cart, reward));
  }
}

=== FILE: profile.dfy ===
/** The profile page (components/Profile.tsx): role names and descriptions, the login
    prompt for anonymous visitors and the edit/save/cancel form state. */
module Profile {
  import opened Wrappers
  import Auth
  import Text

  const KnownRoles := ["citizen", "reporter", "municipal", "admin"]

  /** `getRoleDisplayName`. */
  function RoleDisplayName(role: string): (n: string)
    ensures role == "citizen" ==> n == "Citizen"
    ensures role == "reporter" ==> n == "Community Reporter"
    ensures role == "municipal" ==> n == "Municipal Officer"
    ensures role == "admin" ==> n == "Administrator"
    ensures role !in KnownRoles ==> n == role
  {
    match role
    case "citizen" => "Citizen"
    case "reporter" => "Community Reporter"
    case "municipal" => "Municipal Officer"
    case "admin" => "Administrator"
    case _ => role
  }

  /** `getRoleDescription`. */
  function RoleDescription(role: string): (d: string)
    ensures d == "" <==> role !in KnownRoles
    ensures role == "citizen" ==> d == "Report civic issues and track their resolution in your community."
    ensures role == "reporter" ==> d == "Help identify and report issues, earn rewards for your contributions."
    ensures role == "municipal" ==> d == "Manage and resolve civic issues in your jurisdiction."
    ensures role == "admin" ==> d == "Oversee the entire platform and manage users and departments."
  {
    match role
    case "citizen" => "Report civic issues and track their resolution in your community."
    case "reporter" => "Help identify and report issues, earn rewards for your contributions."
    case "municipal" => "Manage and resolve civic issues in your jurisdiction."
    case "admin" => "Oversee the entire platform and manage users and departments."
    case _ => ""
  }

  /** The four known roles have distinct display names, none equal to the raw role; an
      unknown role is shown as itself with no description. */
  lemma RoleNamesDistinct(role: string)
    ensures role in KnownRoles ==> RoleDisplayName(role) != role && RoleDescription(role) != ""
    ensures forall i, j :: 0 <= i < j < |KnownRoles| ==>
      RoleDisplayName(KnownRoles[i]) != RoleDisplayName(KnownRoles[j])
  {
  }

  /** `user.name.charAt(0).toUpperCase()`. */
  function AvatarInitial(name: string): (s: string)
    ensures name == "" ==> s == ""
    ensures name != "" ==> s == [Text.UpperChar(name[0])]
  {
    Text.ToUpper(name[..if |name| == 0 then 0 else 1])
  }

  /** What the page shows: the login prompt alone, or the user's details. */
  datatype ProfileView =
    | LoginPrompt
    | Details(initial: string, name: string, email: string, roleName: string, roleDescription: string)

  function View(user: Option<Auth.User>): (v: ProfileView)
    ensures v.LoginPrompt? <==> user.None?
    ensures user.Some? ==> v == Details(AvatarInitial(user.value.name), user.value.name,
      user.value.email, RoleDisplayName(user.value.role), RoleDescription(user.value.role))
  {
    match user
    case None => LoginPrompt
    case Some(u) =>
      Details(AvatarInitial(u.name), u.name, u.email, RoleDisplayName(u.role), RoleDescription(u.role))
  }

  /** The Logout button leads straight to the login prompt. */
  lemma LogoutShowsPrompt(st: Auth.AuthState)
    ensures View(Auth.Logout(st).user) == LoginPrompt
  {
  }

  /** The edit form: whether it is open and the two field values. */
  datatype EditState = EditState(isEditing: bool, name: string, email: string)

  /** The form's initial state, `user?.name || ''` and `user?.email || ''`. */
  function InitialEdit(user: Option<Auth.User>): (e: EditState)
    ensures !e.isEditing
    ensures user.Some? ==> e.name == user.value.name && e.email == user.value.email
    ensures user.None? ==> e.name == "" && e.email == ""
  {
    match user
    case None => EditState(false, "", "")
    case Some(u) => EditState(false, OrElse(Some(u.name), ""), OrElse(Some(u.email), ""))
  }

  function StartEdit(e: EditState): (r: EditState)
    ensures r.isEditing && r.name == e.name && r.email == e.email
  {
    e.(isEditing := true)
  }

  /** Typing into the two inputs. */
  function EditFields(e: EditState, name: string, email: string): (r: EditState)
    ensures r.isEditing == e.isEditing && r.name == name && r.email == email
  {
    e.(name := name, email := email)
  }

  /** `handleSave`: leaves edit mode and keeps the typed values; nothing is persisted. */
  function Save(e: EditState): (r: EditState)
    ensures !r.isEditing && r.name == e.name && r.email == e.email
  {
    e.(isEditing := false)
  }

  /** Cancel: leaves edit mode and restores both fields from the user. */
  function Cancel(e: EditState, u: Auth.User): (r: EditState)
    ensures !r.isEditing && r.name == u.name && r.email == u.email
  {
    EditState(false, u.name, u.email)
  }

  /** Cancelling undoes any edit session, whatever was typed. */
  lemma CancelUndoesEdits(u: Auth.User, name: string, email: string)
    ensures Cancel(EditFields(StartEdit(InitialEdit(Some(u))), name, email), u) == InitialEdit(Some(u))
    ensures Save(EditFields(StartEdit(InitialEdit(Some(u))), name, email)) == EditState(false, name, email)
  {
  }
}

=== FILE: shell.dfy ===
/** The root page (app/page.tsx): which page is shown, the demo user's state and the
    report modal's visibility. */
module Shell {
  import Header

  datatype UserState = UserState(role: string, name: string, area: string, completedTraining: int)

  /** `initialUserState`. */
  const InitialUser := UserState("citizen", "User", "Delhi", 2)

  datatype ShellState = ShellState(activePage: string, user: UserState, modalOpen: bool)

  const Init := ShellState("dashboard", InitialUser, false)

  /** `handleNavClick`: show the page and close the modal. */
  function NavClick(st: ShellState, pageId: string): (r: ShellState)
    ensures r.activePage == pageId && !r.modalOpen && r.user == st.user
  {
    ShellState(pageId, st.user, false)
  }

  /** `handleRoleChange`: only the role changes. */
  function RoleChange(st: ShellState, newRole: string): (r: ShellState)
    ensures r.user.role == newRole
    ensures r.user.name == st.user.name && r.user.area == st.user.area
    ensures r.user.completedTraining == st.user.completedTraining
    ensures r.activePage == st.activePage && r.modalOpen == st.modalOpen
  {
    st.(user := st.user.(role := newRole))
  }

  function OpenReportModal(st: ShellState): (r: ShellState)
    ensures r.modalOpen && r.activePage == st.activePage && r.user == st.user
  {
    st.(modalOpen := true)
  }

  function CloseReportModal(st: ShellState): (r: ShellState)
    ensures !r.modalOpen && r.activePage == st.activePage && r.user == st.user
  {
    st.(modalOpen := false)
  }

  /** Opening and closing are idempotent, and closing undoes opening. */
  lemma ModalIdempotent(st: ShellState)
    ensures OpenReportModal(OpenReportModal(st)) == OpenReportModal(st)
    ensures CloseReportModal(CloseReportModal(st)) == CloseReportModal(st)
    ensures !st.modalOpen ==> CloseReportModal(OpenReportModal(st)) == st
  {
  }

  /** Changing the role twice is the same as changing it to the last role, and a role
      change followed by going back restores the state. */
  lemma RoleChangeLastWins(st: ShellState, a: string, b: string)
    ensures RoleChange(RoleChange(st, a), b) == RoleChange(st, b)
    ensures RoleChange(RoleChange(st, a), st.user.role) == st
  {
  }

  datatype View = DashboardView(role: string) | TrainingView | TrackingView
                | ChampionsView | MarketplaceView

  /** `renderPage`: four named pages; every other id, `profile` included, shows the
      dashboard for the current role. */
  function RenderPage(st: ShellState): (v: View)
    ensures v == TrainingView <==> st.activePage == "training"
    ensures v == TrackingView <==> st.activePage == "tracking"
    ensures v == ChampionsView <==> st.activePage == "champions"
    ensures v == MarketplaceView <==> st.activePage == "marketplace"
    ensures v.DashboardView? <==>
      st.activePage !in {"training", "tracking", "champions", "marketplace"}
    ensures v.DashboardView? ==> v.role == st.user.role
  {
    match st.activePage
    case "training" => TrainingView
    case "tracking" => TrackingView
    case "champions" => ChampionsView
    case "marketplace" => MarketplaceView
    case _ => DashboardView(st.user.role)
  }

  /** The app opens on the citizen dashboard with the modal closed. */
  lemma InitialView()
    ensures RenderPage(Init) == DashboardView("citizen") && !Init.modalOpen
  {
  }

  /** Clicking the i-th header link makes exactly that link active and shows its page;
      the profile link falls through to the dashboard. */
  lemma NavClickActivatesLink(st: ShellState, i: nat)
    requires i < |Header.NavIds|
    ensures var r := NavClick(st, Header.NavIds[i]);
      forall j :: 0 <= j < |Header.NavIds| ==> (Header.NavLinks(r.activePage)[j].active <==> j == i)
    ensures RenderPage(NavClick(st, "profile")) == DashboardView(st.user.role)
  {
  }
}

=== FILE: text.dfy ===
/** The string operations the components use: `trim`, ASCII case mapping,
    `replace` of one character by another, `includes` and first-letter capitalisation. */
module Text {

  /** The code points ECMAScript counts as WhiteSpace or LineTerminator, i.e. what
      `String.prototype.trim` strips from either end. */
  predicate IsSpace(c: char) {
    var n := c as int;
    || n == 0x09 || n == 0x0A || n == 0x0B || n == 0x0C || n == 0x0D
    || n == 0x20 || n == 0xA0 || n == 0x1680
    || (0x2000 <= n && n <= 0x200A)
    || n == 0x2028 || n == 0x2029 || n == 0x202F || n == 0x205F
    || n == 0x3000 || n == 0xFEFF
  }

  /** True when the string is empty after trimming, i.e. `!s.trim()` in the source. */
  predicate Blank(s: string) {
    forall i :: 0 <= i < |s| ==> IsSpace(s[i])
  }

  /** `needle` is the slice of `haystack` starting at index `i`. */
  predicate OccursAt(haystack: string, needle: string, i: int) {
    0 <= i <= |haystack| - |needle| && haystack[i..i + |needle|] == needle
  }

  /** The first index at or after `i` that holds no white space (or `|s|`). */
  function SkipStart(s: string, i: nat): (n: nat)
    requires i <= |s|
    ensures i <= n <= |s|
    ensures forall k :: i <= k < n ==> IsSpace(s[k])
    ensures n == |s| || !IsSpace(s[n])
    decreases |s| - i
  {
    if i < |s| && IsSpace(s[i]) then SkipStart(s, i + 1) else i
  }

  /** The end of `s[lo..j]` once the white space at its end is dropped. */
  function SkipEnd(s: string, lo: nat, j: nat): (n: nat)
    requires lo <= j <= |s|
    ensures lo <= n <= j
    ensures forall k :: n <= k < j ==> IsSpace(s[k])
    ensures n == lo || !IsSpace(s[n - 1])
  {
    if lo < j && IsSpace(s[j - 1]) then SkipEnd(s, lo, j - 1) else j
  }

  /** `String.prototype.trim`: the longest slice of `s` with no white space at either end. */
  function Trim(s: string): (r: string)
    ensures exists i :: OccursAt(s, r, i) && Blank(s[..i]) && Blank(s[i + |r|..])
    ensures r == "" || (!IsSpace(r[0]) && !IsSpace(r[|r| - 1]))
    ensures r == "" <==> Blank(s)
  {
    var lo := SkipStart(s, 0);
    var hi := SkipEnd(s, lo, |s|);
    assert OccursAt(s, s[lo..hi], lo);
    assert forall k :: 0 <= k < lo ==> s[..lo][k] == s[k];
    assert forall k :: 0 <= k < |s| - hi ==> s[hi..][k] == s[hi + k];
    s[lo..hi]
  }

  function UpperChar(c: char): char {
    if 'a' <= c <= 'z' then (c as int - 32) as char else c
  }

  function LowerChar(c: char): char {
    if 'A' <= c <= 'Z' then (c as int + 32) as char else c
  }

  /** `toUpperCase`, on the ASCII letters. */
  function ToUpper(s: string): (r: string)
    ensures |r| == |s|
    ensures forall i :: 0 <= i < |s| ==> r[i] == UpperChar(s[i])
  {
    seq(|s|, i requires 0 <= i < |s| => UpperChar(s[i]))
  }

  /** `toLowerCase`, on the ASCII letters. */
  function ToLower(s: string): (r: string)
    ensures |r| == |s|
    ensures forall i :: 0 <= i < |s| ==> r[i] == LowerChar(s[i])
  {
    seq(|s|, i requires 0 <= i < |s| => LowerChar(s[i]))
  }

  /** Lower-casing forgets any earlier upper-casing, so a match on the lower-cased
      text cannot tell the two apart. */
  lemma LowerOfUpper(s: string)
    ensures ToLower(ToUpper(s)) == ToLower(s)
  {
    forall i | 0 <= i < |s| ensures ToLower(ToUpper(s))[i] == ToLower(s)[i] {
      var c := s[i];
      if 'a' <= c <= 'z' {
        assert UpperChar(c) as int == c as int - 32;
      }
    }
  }

  /** `s.replace(/from/g, to)` for single characters. */
  function ReplaceAll(s: string, from: char, to: char): (r: string)
    ensures |r| == |s|
    ensures forall i :: 0 <= i < |s| ==> r[i] == (if s[i] == from then to else s[i])
  {
    seq(|s|, i requires 0 <= i < |s| => if s[i] == from then to else s[i])
  }

  /** `s.replace(from, to)` with a string pattern: only the first occurrence changes. */
  function ReplaceFirst(s: string, from: char, to: char): (r: string)
    ensures |r| == |s|
    ensures from !in s ==> r == s
  {
    if s == "" then ""
    else if s[0] == from then [to] + s[1..]
    else [s[0]] + ReplaceFirst(s[1..], from, to)
  }

  /** The first occurrence, at index `k`, is the one character that changes. */
  lemma {:induction false} ReplaceFirstAt(s: string, from: char, to: char, k: nat)
    requires k < |s| && s[k] == from && from !in s[..k]
    ensures ReplaceFirst(s, from, to) == s[..k] + [to] + s[k + 1..]
  {
    if k > 0 {
      assert s[0] in s[..k];
      assert s[1..][..k - 1] == s[1..k];
      ReplaceFirstAt(s[1..], from, to, k - 1);
      assert s[..k] == [s[0]] + s[1..k];
    }
  }

  /** `ReplaceFirstAt` for every candidate position at once. */
  lemma ReplaceFirstEverywhere(s: string, from: char, to: char)
    ensures forall k :: 0 <= k < |s| && s[k] == from && from !in s[..k] ==>
      ReplaceFirst(s, from, to) == s[..k] + [to] + s[k + 1..]
  {
    forall k | 0 <= k < |s| && s[k] == from && from !in s[..k]
      ensures ReplaceFirst(s, from, to) == s[..k] + [to] + s[k + 1..]
    {
      ReplaceFirstAt(s, from, to, k);
    }
  }

  function Occurrences(s: string, c: char): nat {
    if s == "" then 0 else (if s[0] == c then 1 else 0) + Occurrences(s[1..], c)
  }

  /** With at most one occurrence of the character, replacing the first occurrence and
      replacing every occurrence give the same string. */
  lemma {:induction false} ReplaceFirstIsReplaceAll(s: string, from: char, to: char)
    requires Occurrences(s, from) <= 1
    ensures ReplaceFirst(s, from, to) == ReplaceAll(s, from, to)
  {
    if s != "" {
      ReplaceFirstIsReplaceAll(s[1..], from, to);
      if s[0] == from {
        NoOccurrences(s[1..], from);
      }
    }
  }

  lemma {:induction false} NoOccurrences(s: string, c: char)
    requires Occurrences(s, c) == 0
    ensures c !in s
  {
    if s != "" {
      NoOccurrences(s[1..], c);
      assert s == [s[0]] + s[1..];
    }
  }

  /** `status.replace(/_/g, ' ').toUpperCase()`: the label a status badge shows. */
  function StatusLabel(status: string): (r: string)
    ensures |r| == |status|
    ensures forall i :: 0 <= i < |r| ==> r[i] != '_' && !('a' <= r[i] <= 'z')
    ensures forall i :: 0 <= i < |r| ==>
      r[i] == (if status[i] == '_' then ' ' else UpperChar(status[i]))
  {
    ToUpper(ReplaceAll(status, '_', ' '))
  }

  /** `haystack.includes(needle)`. */
  predicate Contains(haystack: string, needle: string) {
    needle <= haystack || (haystack != "" && Contains(haystack[1..], needle))
  }

  /** `includes` holds exactly when the needle occurs at some position. */
  lemma {:induction false} ContainsAt(haystack: string, needle: string)
    ensures Contains(haystack, needle) <==> exists i :: OccursAt(haystack, needle, i)
  {
    if needle <= haystack {
      assert OccursAt(haystack, needle, 0);
    }
    if haystack != "" {
      ContainsAt(haystack[1..], needle);
      if Contains(haystack[1..], needle) {
        var i :| OccursAt(haystack[1..], needle, i);
        assert OccursAt(haystack, needle, i + 1);
      }
      if exists i :: OccursAt(haystack, needle, i) {
        var i :| OccursAt(haystack, needle, i);
        if i > 0 {
          assert OccursAt(haystack[1..], needle, i - 1);
        }
      }
    }
  }

  /** `s.charAt(0).toUpperCase() + s.slice(1)`. */
  function Capitalize(s: string): (r: string)
    ensures |r| == |s|
    ensures s != "" ==> r[0] == UpperChar(s[0]) && r[1..] == s[1..]
  {
    if s == "" then "" else [UpperChar(s[0])] + s[1..]
  }
}

=== FILE: tracking.dfy ===
/** The tracking page (components/Tracking.tsx): department and issue lists with
    "all or equal" filters, and the class, colour and label tables for their statuses. */
module Tracking {
  import Lists
  import Text

  datatype Department = Department(id: string, name: string, kind: string,
                                   location: string, status: string)

  datatype Issue = Issue(id: string, kind: string, location: string,
                         status: string, priority: string)

  function DepartmentKind(d: Department): string { d.kind }
  function IssueStatus(i: Issue): string { i.status }

  /** `filteredDepartments`: all departments, or those of the selected type, in order. */
  function FilterDepartments(ds: seq<Department>, filter: string): (r: seq<Department>)
    ensures filter == Lists.All ==> r == ds
    ensures forall i :: 0 <= i < |r| ==> r[i] in ds && (filter == Lists.All || r[i].kind == filter)
    ensures forall i :: 0 <= i < |ds| && ds[i].kind == filter ==> ds[i] in r
  {
    Lists.Select(ds, DepartmentKind, filter)
  }

  /** `filteredIssues`: all issues, or those with the selected status, in order. */
  function FilterIssues(issues: seq<Issue>, filter: string): (r: seq<Issue>)
    ensures filter == Lists.All ==> r == issues
    ensures forall i :: 0 <= i < |r| ==>
      r[i] in issues && (filter == Lists.All || r[i].status == filter)
    ensures forall i :: 0 <= i < |issues| && issues[i].status == filter ==> issues[i] in r
  {
    Lists.Select(issues, IssueStatus, filter)
  }

  /** Filtering a list split in two filters each part and keeps them in order. */
  lemma FilterIssuesAppend(a: seq<Issue>, b: seq<Issue>, filter: string)
    ensures FilterIssues(a + b, filter) == FilterIssues(a, filter) + FilterIssues(b, filter)
  {
    Lists.SelectAppend(a, b, IssueStatus, filter);
  }

  lemma FilterDepartmentsAppend(a: seq<Department>, b: seq<Department>, filter: string)
    ensures FilterDepartments(a + b, filter) ==
      FilterDepartments(a, filter) + FilterDepartments(b, filter)
  {
    Lists.SelectAppend(a, b, DepartmentKind, filter);
  }

  const PendingBadge := "status-badge--pending"
  const InProgressBadge := "status-badge--in-progress"
  const OkBadge := "status-badge--ok"

  /** The badge class on an issue card. */
  function IssueBadgeClass(status: string): (c: string)
    ensures c == PendingBadge <==> status == "pending"
    ensures c == InProgressBadge <==> status == "in_progress"
    ensures c == OkBadge <==> status != "pending" && status != "in_progress"
  {
    if status == "pending" then PendingBadge
    else if status == "in_progress" then InProgressBadge
    else OkBadge
  }

  const Green := "#28a745"
  const Yellow := "#ffc107"
  const Red := "#dc3545"

  /** Fill colour of an issue's map marker. */
  function IssueMarkerColour(status: string): (c: string)
    ensures c == Green <==> status == "resolved"
    ensures c == Yellow <==> status == "in_progress"
    ensures c == Red <==> status != "resolved" && status != "in_progress"
  {
    if status == "resolved" then Green else if status == "in_progress" then Yellow else Red
  }

  /** Fill colour of a department's map marker, and of its status in the info window. */
  function DepartmentMarkerColour(status: string): (c: string)
    ensures c == Green <==> status == "operational"
    ensures c == Yellow <==> status == "under_maintenance"
    ensures c == Red <==> status != "operational" && status != "under_maintenance"
  {
    if status == "operational" then Green else if status == "under_maintenance" then Yellow else Red
  }

  /** A pending issue shows a red marker and the pending badge; an issue in progress shows
      yellow and the in-progress badge; a resolved one shows green and the ok badge. */
  lemma MarkerAgreesWithBadge(status: string)
    ensures IssueMarkerColour(status) == Yellow <==> IssueBadgeClass(status) == InProgressBadge
    ensures IssueMarkerColour(status) == Green ==> IssueBadgeClass(status) == OkBadge
    ensures IssueBadgeClass(status) == PendingBadge ==> IssueMarkerColour(status) == Red
  {
  }

  /** `status-${status.replace(/_/g, '-')}`: the status class of a department card. */
  function DepartmentStatusClass(status: string): (c: string)
    ensures |c| == |"status-"| + |status|
    ensures c[..7] == "status-"
    ensures '_' !in c[7..]
    ensures forall i :: 0 <= i < |status| ==>
      c[7 + i] == (if status[i] == '_' then '-' else status[i])
  {
    "status-" + Text.ReplaceAll(status, '_', '-')
  }

  /** The status text of a department card, underscores shown as spaces. */
  function DepartmentStatusText(status: string): (t: string)
    ensures |t| == |status| && '_' !in t
    ensures forall i :: 0 <= i < |status| ==>
      t[i] == (if status[i] == '_' then ' ' else status[i])
  {
    Text.ReplaceAll(status, '_', ' ')
  }

  /** The label of an issue-status filter button. */
  function IssueFilterLabel(status: string): (l: string)
    ensures status == Lists.All ==> l == "All Issues"
    ensures status != Lists.All ==> l == Text.StatusLabel(status)
  {
    if status == Lists.All then "All Issues" else Text.StatusLabel(status)
  }
}

=== FILE: training.dfy ===
/** The training page (components/Training.tsx): a list of modules, each with a bounded
    progress counter and a completion flag, and the id of the lesson that is open. */
module Training {
  import opened Wrappers

  datatype Module = Module(id: string, title: string, duration: string,
                           progress: int, completed: bool)

  datatype TrainingState = TrainingState(modules: seq<Module>, activeId: Option<string>)

  /** Index of the first module with the given id (`Array.prototype.find`). */
  function FindIndex(ms: seq<Module>, id: string): (r: Option<nat>)
    ensures r.Some? ==>
      && r.value < |ms| && ms[r.value].id == id
      && forall j :: 0 <= j < r.value ==> ms[j].id != id
    ensures r.None? ==> forall j :: 0 <= j < |ms| ==> ms[j].id != id
  {
    if ms == [] then None
    else if ms[0].id == id then Some(0)
    else match FindIndex(ms[1..], id)
      case None => None
      case Some(k) => Some(k + 1)
  }

  /** `ms[k]` is the first module with the given id. */
  predicate FirstWith(ms: seq<Module>, id: string, k: int) {
    0 <= k < |ms| && ms[k].id == id && forall j :: 0 <= j < k ==> ms[j].id != id
  }

  function Find(ms: seq<Module>, id: string): (r: Option<Module>)
    ensures r.Some? ==> r.value in ms && r.value.id == id
    ensures r.Some? ==> exists k :: FirstWith(ms, id, k) && ms[k] == r.value
    ensures r.None? <==> forall j :: 0 <= j < |ms| ==> ms[j].id != id
  {
    match FindIndex(ms, id)
    case None => None
    case Some(k) => Some(ms[k])
  }

  /** `Math.min(100, p + (p === 0 ? 40 : 33))`. */
  function NextProgress(p: int): (q: int)
    ensures q <= 100
    ensures p < 100 ==> q > p
    ensures 0 <= p ==> 0 < q
    ensures q == 100 <==> p >= 67
  {
    var step := if p == 0 then 40 else 33;
    if p + step < 100 then p + step else 100
  }

  /** Every module whose id matches gets the new progress; all other modules are kept. */
  function SetProgress(ms: seq<Module>, id: string, q: int): (r: seq<Module>)
    ensures |r| == |ms|
    ensures forall i :: 0 <= i < |ms| ==> r[i].id == ms[i].id
  {
    seq(|ms|, i requires 0 <= i < |ms| =>
      if ms[i].id == id then ms[i].(progress := q, completed := q == 100) else ms[i])
  }

  /** `handleAdvanceProgress`. */
  function Advance(st: TrainingState, id: string): (r: TrainingState)
    ensures Find(st.modules, id).None? || Find(st.modules, id).value.completed ==> r == st
    ensures Find(st.modules, id).Some? && !Find(st.modules, id).value.completed ==>
      var q := NextProgress(Find(st.modules, id).value.progress);
      && |r.modules| == |st.modules|
      && (forall i :: 0 <= i < |st.modules| && st.modules[i].id != id ==>
            r.modules[i] == st.modules[i])
      && (forall i :: 0 <= i < |st.modules| && st.modules[i].id == id ==>
            r.modules[i] == st.modules[i].(progress := q, completed := q == 100))
      && r.activeId == (if q == 100 then None else st.activeId)
  {
    match Find(st.modules, id)
    case None => st
    case Some(m) =>
      if m.completed then st
      else
        var q := NextProgress(m.progress);
        TrainingState(SetProgress(st.modules, id, q), if q == 100 then None else st.activeId)
  }

  /** Progress within bounds and the completion flag set exactly at 100. */
  predicate Consistent(m: Module) {
    0 <= m.progress <= 100 && (m.completed <==> m.progress == 100)
  }

  predicate AllConsistent(ms: seq<Module>) {
    forall i :: 0 <= i < |ms| ==> Consistent(ms[i])
  }

  /** An advance keeps every progress within 0..100 and sets `completed` exactly when
      progress reaches 100. */
  lemma AdvanceKeepsConsistent(st: TrainingState, id: string)
    requires AllConsistent(st.modules)
    ensures AllConsistent(Advance(st, id).modules)
  {
  }

  /** The first module with a given id after an advance. */
  lemma {:induction false} FindAfterAdvance(st: TrainingState, id: string)
    requires Find(st.modules, id).Some?
    ensures var m := Find(st.modules, id).value;
      Find(Advance(st, id).modules, id) ==
        if m.completed then Some(m)
        else Some(m.(progress := NextProgress(m.progress),
                     completed := NextProgress(m.progress) == 100))
  {
    var m := Find(st.modules, id).value;
    if !m.completed {
      var q := NextProgress(m.progress);
      SameIdsSameIndex(st.modules, SetProgress(st.modules, id, q), id);
    }
  }

  lemma {:induction false} SameIdsSameIndex(ms: seq<Module>, ns: seq<Module>, id: string)
    requires |ms| == |ns|
    requires forall i :: 0 <= i < |ms| ==> ms[i].id == ns[i].id
    ensures FindIndex(ms, id) == FindIndex(ns, id)
  {
    if ms != [] {
      SameIdsSameIndex(ms[1..], ns[1..], id);
    }
  }

  /** Any module in a consistent list is complete after at most three advances. */
  lemma {:induction false} ThreeAdvancesComplete(st: TrainingState, id: string)
    requires AllConsistent(st.modules)
    requires Find(st.modules, id).Some?
    ensures var r := Advance(Advance(Advance(st, id), id), id);
      && Find(r.modules, id).Some? && Find(r.modules, id).value.completed
      && Find(r.modules, id).value.progress == 100
  {
    var m0 := Find(st.modules, id).value;
    assert Consistent(m0);
    var s1 := Advance(st, id);
    FindAfterAdvance(st, id);
    AdvanceKeepsConsistent(st, id);
    var s2 := Advance(s1, id);
    FindAfterAdvance(s1, id);
    AdvanceKeepsConsistent(s1, id);
    FindAfterAdvance(s2, id);
    var m1 := Find(s1.modules, id).value;
    var m2 := Find(s2.modules, id).value;
    assert m0.completed || m1.progress >= 34;
    assert m1.completed || m2.progress >= 67;
  }

  /** Completing a lesson closes the modal: the active module is then absent. */
  lemma CompletingClosesLesson(st: TrainingState, id: string)
    requires Find(st.modules, id).Some? && !Find(st.modules, id).value.completed
    requires Find(st.modules, id).value.progress >= 67
    ensures Advance(st, id).activeId.None?
    ensures ActiveModule(Advance(st, id)).None?
  {
  }

  /** `handleStartModule`. */
  function StartModule(st: TrainingState, id: string): (r: TrainingState)
    ensures r.modules == st.modules && r.activeId == Some(id)
  {
    st.(activeId := Some(id))
  }

  /** The lesson modal's close button. */
  function CloseLesson(st: TrainingState): (r: TrainingState)
    ensures r.modules == st.modules && r.activeId.None?
  {
    st.(activeId := None)
  }

  /** `activeModule`: the first module with the active id, or none. */
  function ActiveModule(st: TrainingState): (r: Option<Module>)
    ensures r.Some? ==> st.activeId.Some? && r.value in st.modules && r.value.id == st.activeId.value
    ensures st.activeId.None? ==> r.None?
    ensures st.activeId.Some? ==>
      (r.None? <==> forall j :: 0 <= j < |st.modules| ==> st.modules[j].id != st.activeId.value)
    ensures r.Some? ==> exists k :: FirstWith(st.modules, st.activeId.value, k) && st.modules[k] == r.value
  {
    match st.activeId
    case None => None
    case Some(id) => Find(st.modules, id)
  }

  /** Starting a module that exists opens exactly that module's lesson. */
  lemma StartOpensLesson(st: TrainingState, id: string)
    ensures ActiveModule(StartModule(st, id)) == Find(st.modules, id)
  {
  }

  const ReviewLabel := "Review Module"
  const ContinueLabel := "Continue"
  const StartLabel := "Start Now"

  /** The card's button text. */
  function ButtonLabel(m: Module): (r: string)
    ensures r == ReviewLabel <==> m.completed
    ensures r == ContinueLabel <==> !m.completed && m.progress > 0
    ensures r == StartLabel <==> !m.completed && m.progress <= 0
  {
    if m.completed then ReviewLabel else if m.progress > 0 then ContinueLabel else StartLabel
  }

  /** Once advanced, a module never shows "Start Now" again. */
  lemma AdvancedNeverStarts(st: TrainingState, id: string, i: nat)
    requires AllConsistent(st.modules) && UniqueIds(st.modules)
    requires i < |st.modules| && st.modules[i].id == id
    ensures ButtonLabel(Advance(st, id).modules[i]) != StartLabel
  {
    var k := FindIndex(st.modules, id).value;
    assert i == k;
  }

  /** `modules.filter(m => m.completed).length`. */
  /** The modules' `completed` flags, in order. */
  function Flags(ms: seq<Module>): (f: seq<bool>)
    ensures |f| == |ms| && forall i :: 0 <= i < |ms| ==> f[i] == ms[i].completed
  {
    seq(|ms|, i requires 0 <= i < |ms| => ms[i].completed)
  }

  /** `modules.filter(m => m.completed).length`: how many flags are set. */
  function CompletedCount(ms: seq<Module>): (n: nat)
    ensures n <= |ms|
    ensures n == |ms| <==> forall i :: 0 <= i < |ms| ==> ms[i].completed
  {
    if ms == [] then 0 else (if ms[0].completed then 1 else 0) + CompletedCount(ms[1..])
  }

  /** The count is the number of `completed` flags that are set. */
  lemma {:induction false} CompletedCountCountsFlags(ms: seq<Module>)
    ensures CompletedCount(ms) == multiset(Flags(ms))[true]
  {
    if ms != [] {
      CompletedCountCountsFlags(ms[1..]);
      assert Flags(ms) == [ms[0].completed] + Flags(ms[1..]);
    }
  }

  predicate UniqueIds(ms: seq<Module>) {
    forall i, j :: 0 <= i < j < |ms| ==> ms[i].id != ms[j].id
  }

  lemma {:induction false} CountMonotone(ms: seq<Module>, ns: seq<Module>)
    requires |ms| == |ns|
    requires forall i :: 0 <= i < |ms| && ms[i].completed ==> ns[i].completed
    ensures CompletedCount(ms) <= CompletedCount(ns)
  {
    if ms != [] {
      CountMonotone(ms[1..], ns[1..]);
    }
  }

  /** With distinct ids, an advance changes only the one module with that id, never
      lowers any progress, and never lowers the number of completed modules. */
  lemma {:induction false} AdvanceMonotone(st: TrainingState, id: string)
    requires UniqueIds(st.modules) && AllConsistent(st.modules)
    ensures forall i :: 0 <= i < |st.modules| ==>
      st.modules[i].progress <= Advance(st, id).modules[i].progress
    ensures CompletedCount(st.modules) <= CompletedCount(Advance(st, id).modules)
  {
    var r := Advance(st, id);
    if r != st {
      var k := FindIndex(st.modules, id).value;
      assert forall i :: 0 <= i < |st.modules| && st.modules[i].id == id ==> i == k;
    }
    CountMonotone(st.modules, r.modules);
  }
}

=== FILE: wrappers.dfy ===
/** The optional value used wherever the application reads `null`, `undefined` or a
    zero-or-one backend row. */
module Wrappers {

  datatype Option<+T> = None | Some(value: T) {

    /** The value, or `default` when there is none. */
    function GetOr(default: T): T {
      match this
      case Some(v) => v
      case None => default
    }
  }

  /** JavaScript's `v || fallback` on a value that may be absent or empty: an absent
      value and the empty string are both falsy, so both yield the fallback. */
  function OrElse(v: Option<string>, fallback: string): (r: string)
    ensures v.Some? && v.value != "" ==> r == v.value
    ensures v.None? || v.value == "" ==> r == fallback
  {
    if v.Some? && v.value != "" then v.value else fallback
  }
}
